=== FILE: README.md ===
# timetracker — a Dafny model of the log analysis

`timetracker.py` is a small command-line time tracker. A daemon appends one
line `<unix time> <path>` to a watch log for every file creation, deletion
or modification under a watched project directory. `--stats` then folds that log into an estimate of
the time spent on each project. Every "session" counts as five minutes
(`MIN_TIME_DIFF`, 300 s); an event opens a new session only when it is more
than 300 s away from the project's last counted event. Finally `--stats`
replaces the log with one summary line `saved <count> <last> <path>` per
project, so the next run starts from those totals.

This project models that core in Dafny:

- `analyzeLogFiles` in two phases:
  - phase one reads the summary lines;
  - phase two scans the raw events once per watched project.
- The line formats the daemon and `--stats` write.
- The `--stats` report and the compacted log.
- The watchlist reader's blank-line filter and de-duplication.
- The `--remove` index deletion.

Python's `str.strip`, `str.split(" ")`, `" ".join`, `startswith`, `int()`
and `str()` are written out in `Text` and `Numbers`. A Python exception
becomes `None` of an `Option`.

The project has these modules:

- `Wrappers`: the `Option` type.
- `Text`: Python 2 string operations.
- `Numbers`: `str(int)` and `int(str)`.
- `LogFormat`: summary and event lines.
- `Aggregator`: `analyzeLogFiles` over a record `map<string, Summary>`.
- `Analysis`: properties of the whole analysis.
- `Stats`: the `--stats` report and compaction.
- `Watchlist`: `readWatchlist` and `--remove`.
- `FlatDict`: the source's flat dictionary with `_lt` keys, exactly as
  written.

Four behaviours of the code are easy to misread; the model follows the code:

- The path of an event line starts at character 11, so exactly one
  separator character follows a ten-character timestamp.
- Every watched project starts with last-seen time 0, so events at 0, 100,
  200 and 400 s count as one session, not two (`Analysis.BurstExample`).
- A summary line for a path that is not watched still creates an entry,
  which `--stats` reports and saves again (`Analysis.SavedLineSetsEntry`).
- An event belongs to a project when its path merely starts with the
  project's path, so `/home/u/proj2/file` counts for `/home/u/proj`
  (`Analysis.PrefixExample`).

## Model

| member | source | states |
|---|---|---|
| Text.Trim | timetracker.py:98 | `strip()` yields the infix of its input left after dropping whitespace at both ends only: the result has no surrounding whitespace, everything cut away before and after it is whitespace, and an already stripped string is unchanged |
| Text.Split | timetracker.py:93 | `split(" ")` yields at least one piece and no piece contains a space |
| Text.JoinSplit | timetracker.py:93-98 | re-joining the pieces of `split(" ")` with single spaces gives back the original text, so the path re-assembled from pieces four onwards is the path text |
| Text.Join | timetracker.py:98 | no contract; characterised by `Text.JoinSplit` |
| Text.SplitAfterWord | timetracker.py:93 | a space-free word followed by a space is split off as the first piece, and the rest splits on its own |
| Numbers.IntToString | timetracker.py:227 | no contract; characterised by `Numbers.NatToString` (digits without a leading zero), `Numbers.IntToStringShape` and `Numbers.IntRoundTrip` |
| Numbers.NatToString | timetracker.py:227 | `str(n)` for `n >= 0` is a non-empty run of digits without a leading zero that denotes `n` |
| Numbers.IntToStringShape | timetracker.py:227 | `str(i)` is non-empty, has no whitespace and no space, and is an optional `-` followed by digits |
| Numbers.ParseInt | timetracker.py:94-95 | `int()` succeeds exactly when the stripped text is a non-empty run of digits, optionally after one `-` or `+`; every other text raises |
| Numbers.IntRoundTrip | timetracker.py:94-95 | `int(str(i)) == i` for every integer, so the counts and times `--stats` writes read back unchanged |
| LogFormat.SavedLineNotBlank | timetracker.py:89 | a line starting with `saved` is never blank, so the blank test never hides a summary line |
| LogFormat.ParseSaved | timetracker.py:93-98 | a summary line reads successfully exactly when it has at least three pieces and the second and third are numerals `int()` accepts; the path it yields has no surrounding whitespace |
| LogFormat.SavedLine | timetracker.py:227 | no contract; characterised by `LogFormat.SavedLineIsSaved`, `LogFormat.SavedLinePieces` and `LogFormat.SavedLineRoundTrip` |
| LogFormat.SavedLineIsSaved | timetracker.py:227 | every line `--stats` saves starts with `saved` |
| LogFormat.SavedLinePieces | timetracker.py:227 | splitting a saved line at spaces gives `saved`, the count numeral, the time numeral, then the pieces of the path |
| LogFormat.SavedLineRoundTrip | timetracker.py:93-98 | a saved line reads back as the same path, count and last-seen time whenever the path has no surrounding whitespace |
| LogFormat.ParseEvent | timetracker.py:110-111 | an event line reads successfully exactly when `int()` accepts its first ten characters (the whole line if shorter), whose value is the time; the path is what follows the first eleven characters, empty for shorter lines |
| LogFormat.EventLine | timetracker.py:125 | no contract; characterised by `LogFormat.EventLineIsEvent`, `LogFormat.EventLineRoundTrip`, `LogFormat.ShortStampDropsPathChar`, `LogFormat.ShortStampRaises` and `LogFormat.EmptyPathStripped` |
| LogFormat.EventLineIsEvent | timetracker.py:125 | a line the daemon appends is neither blank nor a summary line, so phase two always reads it |
| LogFormat.EventLineRoundTrip | timetracker.py:110-111 | an appended line with a ten-digit timestamp reads back as the same time and path |
| LogFormat.ShortStampRaises | timetracker.py:110 | with a timestamp of eight digits or fewer and a path starting with `/`, `int(line[:10])` raises, because the slice takes in the separator and the start of the path |
| LogFormat.EmptyPathStripped | timetracker.py:60 | for an empty path the daemon's line ends with the separator, and the strip in `addToFile` leaves the bare numeral |
| LogFormat.ShortStampDropsPathChar | timetracker.py:110-111 | with a nine-digit timestamp the time still reads back, since `int()` strips the separator inside `line[:10]`, but the path loses its first character |
| Aggregator.Init | timetracker.py:82-85 | before the log is read, the keys are exactly the watched projects, each with count 0 and last-seen 0 |
| Aggregator.LoadSaved | timetracker.py:88-101 | phase one only ever adds keys; characterised by `Aggregator.LoadSavedFails`, `Aggregator.LoadSavedKeys` and `Aggregator.LoadSavedValues` |
| Aggregator.LastSaved | timetracker.py:88-101 | a last readable summary line for a path exists exactly when the path is named by some readable summary line |
| Aggregator.LoadSavedFails | timetracker.py:88-95 | phase one raises exactly when some summary line has fewer than three pieces or a non-numeric count or time |
| Aggregator.LoadSavedKeys | timetracker.py:100-101 | phase one adds exactly the summary paths to the keys, watched or not |
| Aggregator.LoadSavedValues | timetracker.py:88-101 | after phase one a summary path holds the pair of its last summary line, and every other key keeps its initial pair |
| Aggregator.ParseEvents | timetracker.py:105-111 | reading the raw lines yields at most one event per line; characterised by `Aggregator.ParseEventsFails`, `Analysis.ParseEventsAppend` and `Analysis.ParsedMatchCount` |
| Aggregator.ParseEventsFails | timetracker.py:105-110 | phase two raises exactly when some raw event line has a non-numeric timestamp field |
| Aggregator.Step | timetracker.py:113-115 | no contract; characterised by `Analysis.WindowAbsorbs` and `Analysis.GapOpensSession` |
| Aggregator.ScanSummary | timetracker.py:105-115 | one project's pass never lowers its count and adds at most one per event under it; last-seen stays put or becomes the time of such an event; without a new session nothing changes |
| Aggregator.Scan | timetracker.py:105-115 | a project's pass changes its own pair only |
| Aggregator.ScanAll | timetracker.py:104-115 | after the outer loop each key has been scanned once per occurrence of its project in the list, and the key set is unchanged |
| Aggregator.EventProjects | timetracker.py:104 | the scan visits each watched project not starting with `saved`, as often as it is listed, and no other |
| Aggregator.Analyze | timetracker.py:81-118 | the analysis raises exactly when a summary line is unreadable, or an event line is unreadable while some project is scanned; otherwise its keys are the watched projects plus the summary paths |
| Analysis.LoadSavedAppend | timetracker.py:88-101 | phase one over two pieces of a log is phase one over the first piece and then over the second |
| Analysis.ParseEventsAppend | timetracker.py:105-111 | phase two over two pieces of a log reads the events of each piece in order, and fails if either piece fails |
| Analysis.ParsedMatchCount | timetracker.py:105-113 | the events read under a project are as many as the raw lines whose path starts with it |
| Analysis.AnalyzeEntry | timetracker.py:104-115 | each entry of the result is its phase-one pair scanned once for each time its project is visited |
| Analysis.EmptyLog | timetracker.py:81-118 | with an empty log every watched project gets count 0 and last-seen 0, and nothing else appears |
| Analysis.SavedLineSetsEntry | timetracker.py:88-101 | a log holding one summary line yields the initial record with that path set to the saved pair, whether the path is watched or not |
| Analysis.WindowAbsorbs | timetracker.py:113-115 | events that are not under the project, or lie within 300 s of its last-seen time, change neither its count nor its last-seen time |
| Analysis.GapOpensSession | timetracker.py:113-115 | an event under the project more than 300 s from its last-seen time adds a session and becomes the last-seen time before later events are looked at |
| Analysis.BurstExample | timetracker.py:113-115 | events at 0, 100, 200 and 400 s under a fresh project give one session, last seen at 400 |
| Analysis.PrefixExample | timetracker.py:113 | a file below a watched directory counts for it, and not for another directory; a sibling directory whose name extends the project's (`proj2` for `proj`) counts too, because the test is a plain prefix |
| Analysis.ScanAllPermutation | timetracker.py:104-115 | two listings of the same projects, in any order, scan a record identically |
| Analysis.OrderIndependent | timetracker.py:104-115 | the result depends on how often each project is watched, not on the order of the watchlist |
| Analysis.AnalyzeMonotone | timetracker.py:100-115 | a project's count never falls below its phase-one count, and rises by at most the number of its event lines for each time it is listed |
| Analysis.BlankLineIgnored | timetracker.py:89-107 | a blank line anywhere in the log changes nothing |
| Analysis.SavedLineNotEvent | timetracker.py:106 | summary lines are never read as events |
| Analysis.EventLineNotSaved | timetracker.py:89 | lines not starting with `saved` are never read as summaries |
| Stats.Compact | timetracker.py:222-227 | the compacted log holds one line per reported project |
| Stats.CompactAt | timetracker.py:227 | the i-th saved line carries the i-th project's count and last-seen time |
| Stats.CompactSaved | timetracker.py:227 | the compacted log holds summary lines only, so no raw event survives compaction |
| Stats.Report | timetracker.py:223-224 | the report has one line per project, in the order the projects are listed |
| Stats.ReportLine | timetracker.py:224 | no contract; characterised by `Stats.ReportLineRoundTrip` |
| Stats.ReportLineRoundTrip | timetracker.py:224 | a report line reads back as its project and `count * 300` seconds |
| Stats.LoadCompact | timetracker.py:227 | reading a compacted log loads exactly the saved pairs and leaves every other key alone |
| Stats.CompactionIdempotent | timetracker.py:222-230 | analysing the compacted log gives back the very record it was written from, as long as the record covers the watchlist and no key has surrounding whitespace |
| Stats.ReanalysisStable | timetracker.py:219-230 | running `--stats` on its own output reproduces the same record when the watched paths have no surrounding whitespace |
| Stats.NextPassMonotone | timetracker.py:219-230 | after compaction, whatever raw events are appended, the next analysis never lowers a count |
| Stats.EveryProjectReported | timetracker.py:223-227 | every watched project gets a report line and a saved line carrying its own pair |
| Watchlist.ReadWatchlist | timetracker.py:55 | the watchlist holds each non-blank line once and nothing else |
| Watchlist.AnyReadingSameAnalysis | timetracker.py:55 | whatever order the set yields the projects in, the analysis comes out the same |
| Watchlist.RemoveAt | timetracker.py:214-215 | deletion happens exactly for `0 <= i < len`; the entry at `i` goes, earlier entries stay, later ones move up by one |
| Watchlist.RemoveAtInverse | timetracker.py:215 | putting the removed entry back restores the list; on a duplicate-free list exactly that project disappears |
| FlatDict.InitFlat | timetracker.py:82-85 | every watched project gets both its count key and its `_lt` key; characterised by `FlatDict.EncodesInit` |
| FlatDict.LoadSavedFlat | timetracker.py:88-101 | phase one on the flat dictionary only ever adds keys; characterised by `FlatDict.LoadSavedEncodes` |
| FlatDict.StepFlat | timetracker.py:113-115 | one event never changes the flat dictionary's keys; characterised through `FlatDict.ScanEncodes` |
| FlatDict.ScanFlat | timetracker.py:105-115 | one project's pass never changes the flat dictionary's keys; characterised by `FlatDict.ScanEncodes` |
| FlatDict.ScanAllFlat | timetracker.py:104-115 | the outer loop never changes the flat dictionary's keys |
| FlatDict.AnalyzeFlat | timetracker.py:81-118 | no contract; characterised by `FlatDict.AnalyzeFlatAgrees` and `FlatDict.LtCollision` |
| FlatDict.ReportedFlat | timetracker.py:223 | no contract; characterised by `FlatDict.AnalyzeFlatAgrees` and `FlatDict.LtCollision` |
| FlatDict.LoadSavedEncodes | timetracker.py:88-101 | phase one on the flat dictionary keeps it the encoding of the record while no key ends in `_lt` |
| FlatDict.ScanEncodes | timetracker.py:113-115 | one project's pass on the flat dictionary keeps it the encoding of the record |
| FlatDict.AnalyzeFlatAgrees | timetracker.py:81-118 | while no watched project or summary path ends in `_lt`, the flat dictionary encodes the record and `--stats` reports exactly the record's keys |
| FlatDict.LtCollision | timetracker.py:223 | watching `p` next to `p_lt` hides `p_lt` from the report, although the analysis has an entry for it |

## Left out

- The daemon: pyinotify, the notifier loop and `EventHandler`'s dispatch are
  not modelled. The clock (`time.time()`) becomes the parameter `t` of
  `LogFormat.EventLine`.
- File I/O is not modelled: `readFile`, `saveList` and the creation of the
  configuration directory. The watch log and the watchlist are given as
  sequences of lines. The newline handling of `splitlines` and of
  `saveList` is not modelled.
- `addToFile` strips the line it appends. `LogFormat.EventLine` is the line
  before that strip; the two agree whenever the path is non-empty and has no
  trailing whitespace. With an empty path the stored line is the bare
  numeral (`LogFormat.EmptyPathStripped`).
- Argument parsing, `version`, `printWatchlist` and console output are not
  modelled. The report lines are modelled (`Stats.Report`), but not how they
  are printed.
- `--add` is not modelled: its path resolution (`abspath`, `expanduser`)
  and existence check need the filesystem.
- Python's set and dict iteration order is unspecified. `Watchlist.ReadWatchlist`
  keeps each project at its last occurrence, and `Watchlist.AnyReadingSameAnalysis`
  shows the order does not matter. `--stats` walks the keys in an order given
  as the parameter `ks`, which must list every key once.
- Concurrency is not modelled: the daemon and `--stats` write the same log
  without a lock, so a line appended while `--stats` rewrites the log can be
  lost. The model treats each pass as reading one fixed log.
- Numbers.ParseInt: Python 2's `int()` is lenient about whitespace between
  the sign and the digits; the model rejects such numerals. The source never
  writes them.
- LogFormat.EventLineRoundTrip: stated only for ten-digit timestamps. A
  nine-digit stamp makes `line[11:]` lose the path's first character
  (`LogFormat.ShortStampDropsPathChar`). With a shorter stamp, `line[:10]`
  takes in the separator, so `int()` raises for a path starting with `/`
  (`LogFormat.ShortStampRaises`). A longer stamp is cut by `line[:10]`.
- Stats.CompactionIdempotent: requires keys without surrounding whitespace,
  because the reader strips the path; a key with such whitespace is saved
  under a different name.

## Findings

| source | as written | input that shows it | evidently intended | confidence | as-written member | corrected member |
|---|---|---|---|---|---|---|
| timetracker.py:84-85 | a project's count is stored under `project` and its last-seen time under `project + "_lt"` in the same dictionary, and `--stats` skips every key ending in `_lt` | watchlist `["/a", "/a_lt"]`: the count of `/a_lt` shares a slot with the last-seen time of `/a` and is never reported or saved | every watched project is reported and saved with its own count | high; not executed | FlatDict.LtCollision | Stats.EveryProjectReported |

The model proper keeps both numbers of a project in one `Summary` record
(`Aggregator`), which is the corrected behaviour. `FlatDict` models the
flat dictionary as written. `FlatDict.AnalyzeFlatAgrees` shows the two
agree whenever no project and no summary path ends in `_lt`.

=== FILE: aggregator.dfy ===
/** `analyzeLogFiles`: folds the watch log into one session count and one
    last-seen time per project. Phase one starts every watched project at
    count 0 and last-seen 0 and lets each summary line overwrite its path's
    pair; phase two scans the raw events once per watched project and counts
    an event as a new session only when it lies more than `MinGap` seconds
    away from the project's last-seen time. */
module Aggregator {
  import opened Wrappers
  import opened Text
  import opened LogFormat

  /** MIN_TIME_DIFF: five minutes. */
  const MinGap: int := 300

  /** The pair the source keeps under `project` and `project + "_lt"`. */
  datatype Summary = Summary(count: int, lastSeen: int)

  type State = map<string, Summary>

  function Abs(x: int): nat {
    if x < 0 then -x else x
  }

  /** Every watched project starts at count 0, last seen at time 0. */
  function Init(w: seq<string>): (m: State)
    ensures m.Keys == set p | p in w
    ensures forall p :: p in m ==> m[p] == Summary(0, 0)
  {
    map p | p in w :: Summary(0, 0)
  }

  // ---------------------------------------------------------------------
  // Phase one: summary lines

  /** A line that is not a summary line, or a readable one. */
  predicate SavedLineOk(line: string) {
    IsSavedLine(line) ==> ParseSaved(line).Some?
  }

  /** Every summary line has a readable count and last-seen field. */
  predicate SavedLinesWellFormed(log: seq<string>) {
    All(log, SavedLineOk)
  }

  /** The paths named by readable summary lines. */
  function SavedPaths(log: seq<string>): set<string>
    decreases |log|
  {
    if |log| == 0 then {}
    else
      (if IsSavedLine(log[0]) && ParseSaved(log[0]).Some? then {ParseSaved(log[0]).value.path} else {})
      + SavedPaths(log[1..])
  }

  /** The last readable summary line for path `k`: later lines win. */
  function LastSaved(log: seq<string>, k: string): (r: Option<SavedEntry>)
    ensures r.Some? <==> k in SavedPaths(log)
    ensures r.Some? ==> r.value.path == k
    decreases |log|
  {
    if |log| == 0 then None
    else match LastSaved(log[1..], k)
      case Some(e) => Some(e)
      case None =>
        if IsSavedLine(log[0]) && ParseSaved(log[0]).Some? && ParseSaved(log[0]).value.path == k
        then ParseSaved(log[0])
        else None
  }

  /** Phase one over `log`, starting from `m`: each readable summary line
      overwrites its path's pair, raw and blank lines are skipped, and an
      unreadable summary line raises. */
  function LoadSaved(m: State, log: seq<string>): (r: Option<State>)
    ensures r.Some? ==> m.Keys <= r.value.Keys
    decreases |log|
  {
    if |log| == 0 then Some(m)
    else if !IsSavedLine(log[0]) || IsBlank(log[0]) then LoadSaved(m, log[1..])
    else
      match ParseSaved(log[0])
      case None => None
      case Some(e) => LoadSaved(m[e.path := Summary(e.count, e.lastSeen)], log[1..])
  }

  /** A readable summary line at the head of the log overwrites its path's
      pair before the rest of the log is read. */
  lemma LoadSavedCons(m: State, log: seq<string>, e: SavedEntry)
    requires |log| > 0 && IsSavedLine(log[0]) && ParseSaved(log[0]) == Some(e)
    ensures LoadSaved(m, log) == LoadSaved(m[e.path := Summary(e.count, e.lastSeen)], log[1..])
  {
    SavedLineNotBlank(log[0]);
  }

  lemma SavedLinesWellFormedTail(log: seq<string>)
    requires |log| > 0
    ensures SavedLinesWellFormed(log) <==> SavedLineOk(log[0]) && SavedLinesWellFormed(log[1..])
  {
    AllTail(log, SavedLineOk);
  }

  /** Phase one fails exactly when some summary line is unreadable. */
  lemma {:induction false} LoadSavedFails(m: State, log: seq<string>)
    ensures LoadSaved(m, log).Some? <==> SavedLinesWellFormed(log)
    decreases |log|
  {
    if |log| > 0 {
      SavedLinesWellFormedTail(log);
      if IsSavedLine(log[0]) {
        SavedLineNotBlank(log[0]);
      }
      if !IsSavedLine(log[0]) || IsBlank(log[0]) {
        LoadSavedFails(m, log[1..]);
      } else if ParseSaved(log[0]).Some? {
        var e := ParseSaved(log[0]).value;
        LoadSavedFails(m[e.path := Summary(e.count, e.lastSeen)], log[1..]);
      }
    }
  }

  /** Phase one adds exactly the paths of the summary lines to the keys,
      whether those paths are watched or not. */
  lemma {:induction false} LoadSavedKeys(m: State, log: seq<string>)
    requires LoadSaved(m, log).Some?
    ensures LoadSaved(m, log).value.Keys == m.Keys + SavedPaths(log)
    decreases |log|
  {
    if |log| > 0 {
      if !IsSavedLine(log[0]) {
        assert SavedPaths(log) == SavedPaths(log[1..]);
        LoadSavedKeys(m, log[1..]);
      } else {
        SavedLineNotBlank(log[0]);
        var e := ParseSaved(log[0]).value;
        var m' := m[e.path := Summary(e.count, e.lastSeen)];
        assert LoadSaved(m, log) == LoadSaved(m', log[1..]);
        assert SavedPaths(log) == {e.path} + SavedPaths(log[1..]);
        LoadSavedKeys(m', log[1..]);
      }
    }
  }

  /** After phase one a path named by some summary line holds the pair of
      the last such line; every other key keeps the pair it started with. */
  lemma {:induction false} LoadSavedValues(m: State, log: seq<string>, k: string)
    requires LoadSaved(m, log).Some?
    requires k in LoadSaved(m, log).value
    ensures LastSaved(log, k).Some? ==>
              LoadSaved(m, log).value[k]
              == Summary(LastSaved(log, k).value.count, LastSaved(log, k).value.lastSeen)
    ensures k in m && LastSaved(log, k).None? ==> LoadSaved(m, log).value[k] == m[k]
    decreases |log|
  {
    if |log| > 0 {
      if IsSavedLine(log[0]) {
        SavedLineNotBlank(log[0]);
      }
      if !IsSavedLine(log[0]) || IsBlank(log[0]) {
        LoadSavedValues(m, log[1..], k);
      } else {
        var e := ParseSaved(log[0]).value;
        LoadSavedValues(m[e.path := Summary(e.count, e.lastSeen)], log[1..], k);
      }
    }
  }

  // ---------------------------------------------------------------------
  // Phase two: raw events

  /** A line that is not a raw event line, or one with a readable stamp. */
  predicate EventLineOk(line: string) {
    IsEventLine(line) ==> ParseEvent(line).Some?
  }

  /** Every raw event line has a readable timestamp. */
  predicate EventLinesWellFormed(log: seq<string>) {
    All(log, EventLineOk)
  }

  /** The raw event lines of `log`, read in log order; summary lines and
      blank lines are skipped, an unreadable timestamp raises. */
  function ParseEvents(log: seq<string>): (r: Option<seq<Event>>)
    ensures r.Some? ==> |r.value| <= |log|
    decreases |log|
  {
    if |log| == 0 then Some([])
    else if IsSavedLine(log[0]) || IsBlank(log[0]) then ParseEvents(log[1..])
    else
      match ParseEvent(log[0])
      case None => None
      case Some(e) =>
        match ParseEvents(log[1..])
        case None => None
        case Some(evs) => Some([e] + evs)
  }

  lemma EventLinesWellFormedTail(log: seq<string>)
    requires |log| > 0
    ensures EventLinesWellFormed(log) <==> EventLineOk(log[0]) && EventLinesWellFormed(log[1..])
  {
    AllTail(log, EventLineOk);
  }

  /** Reading the events fails exactly when some raw event line has an
      unreadable timestamp. */
  lemma {:induction false} ParseEventsFails(log: seq<string>)
    ensures ParseEvents(log).Some? <==> EventLinesWellFormed(log)
    decreases |log|
  {
    if |log| > 0 {
      EventLinesWellFormedTail(log);
      ParseEventsFails(log[1..]);
    }
  }

  /** How many of `evs` lie under project `p`. */
  function MatchCount(evs: seq<Event>, p: string): nat
    decreases |evs|
  {
    if |evs| == 0 then 0
    else (if StartsWith(evs[0].path, p) then 1 else 0) + MatchCount(evs[1..], p)
  }

  /** How many raw event lines of `log` read as an event under project `p`. */
  function MatchingLines(log: seq<string>, p: string): nat
    decreases |log|
  {
    if |log| == 0 then 0
    else
      (if IsEventLine(log[0]) && ParseEvent(log[0]).Some? && StartsWith(ParseEvent(log[0]).value.path, p)
       then 1 else 0)
      + MatchingLines(log[1..], p)
  }

  /** One event seen by project `p`: an event under `p` more than `MinGap`
      seconds away from the last-seen time opens a new session and becomes
      the last-seen time; any other event leaves the pair alone. */
  function Step(s: Summary, p: string, e: Event): Summary
  {
    if StartsWith(e.path, p) && Abs(e.time - s.lastSeen) > MinGap
    then Summary(s.count + 1, e.time)
    else s
  }

  /** One project's pass over the events, in log order. The count never
      drops and grows by at most the number of events under `p`; the
      last-seen time stays or becomes the time of an event under `p`; and
      when no session is added nothing moves at all. */
  function ScanSummary(s: Summary, p: string, evs: seq<Event>): (r: Summary)
    ensures s.count <= r.count <= s.count + MatchCount(evs, p)
    ensures r.lastSeen == s.lastSeen
            || exists i :: 0 <= i < |evs| && StartsWith(evs[i].path, p) && r.lastSeen == evs[i].time
    ensures r.count == s.count ==> r == s
    decreases |evs|
  {
    if |evs| == 0 then s
    else
      var r := ScanSummary(Step(s, p, evs[0]), p, evs[1..]);
      assert forall i :: 0 <= i < |evs[1..]| ==> evs[1..][i] == evs[i + 1];
      r
  }

  /** The source's inner loop over the whole record: scanning for project
      `p` touches the pair of `p` and of no other key. */
  function Scan(m: State, p: string, evs: seq<Event>): (r: State)
    requires p in m
    ensures r.Keys == m.Keys
    ensures forall k :: k in m && k != p ==> r[k] == m[k]
    ensures r[p] == ScanSummary(m[p], p, evs)
    decreases |evs|
  {
    if |evs| == 0 then m
    else Scan(m[p := Step(m[p], p, evs[0])], p, evs[1..])
  }

  /** `n` consecutive passes of project `p` over the same events. */
  function Repeat(s: Summary, p: string, evs: seq<Event>, n: nat): Summary
    decreases n
  {
    if n == 0 then s else Repeat(ScanSummary(s, p, evs), p, evs, n - 1)
  }

  /** Two records with the same keys and the same pair under each key are
      the same record. */
  lemma SameMap(a: State, b: State)
    requires a.Keys == b.Keys
    requires forall k :: k in a ==> a[k] == b[k]
    ensures a == b
  {
  }

  /** The outer loop over the projects. Each key ends up scanned once per
      occurrence in `ps` and is otherwise untouched, so only how often each
      project occurs matters, not the visiting order. */
  function ScanAll(m: State, ps: seq<string>, evs: seq<Event>): (r: State)
    requires forall p :: p in ps ==> p in m
    ensures r.Keys == m.Keys
    ensures forall k :: k in m ==> r[k] == Repeat(m[k], k, evs, multiset(ps)[k])
    decreases |ps|
  {
    if |ps| == 0 then m
    else
      var r := ScanAll(Scan(m, ps[0], evs), ps[1..], evs);
      ScanAllStep(m, ps, evs, r);
      r
  }

  /** The inductive step of `ScanAll`: scanning the first project once more
      adds one pass for it and none for any other key. */
  lemma ScanAllStep(m: State, ps: seq<string>, evs: seq<Event>, r: State)
    requires |ps| > 0 && ps[0] in m
    requires r.Keys == m.Keys
    requires forall k :: k in m ==>
               r[k] == Repeat(Scan(m, ps[0], evs)[k], k, evs, multiset(ps[1..])[k])
    ensures forall k :: k in m ==> r[k] == Repeat(m[k], k, evs, multiset(ps)[k])
  {
    assert ps == [ps[0]] + ps[1..];
    assert multiset(ps) == multiset{ps[0]} + multiset(ps[1..]);
    forall k | k in m ensures r[k] == Repeat(m[k], k, evs, multiset(ps)[k]) {
      var n := multiset(ps[1..])[k];
      if k == ps[0] {
        assert multiset(ps)[k] == n + 1;
        assert Repeat(m[k], k, evs, n + 1) == Repeat(ScanSummary(m[k], k, evs), k, evs, n);
      } else {
        assert multiset(ps)[k] == n;
      }
    }
  }

  /** The watched projects the event scan visits: those not starting with
      `saved`, each as often as it occurs in the watchlist. */
  function EventProjects(w: seq<string>): (ps: seq<string>)
    ensures forall p :: p in ps ==> p in w
    ensures forall p :: multiset(ps)[p] == if IsSavedLine(p) then 0 else multiset(w)[p]
    decreases |w|
  {
    if |w| == 0 then []
    else
      var rest := EventProjects(w[1..]);
      assert w == [w[0]] + w[1..];
      assert multiset(w) == multiset{w[0]} + multiset(w[1..]);
      if IsSavedLine(w[0]) then rest
      else
        assert multiset([w[0]] + rest) == multiset{w[0]} + multiset(rest);
        [w[0]] + rest
  }

  /** `analyzeLogFiles(watchlist, loglist)`. It fails (the source raises)
      exactly when a summary line is unreadable, or when an event line is
      unreadable and there is a watched project whose events get scanned.
      Otherwise every watched project and every path named by a summary line
      has exactly one entry, and no other key exists. */
  function Analyze(w: seq<string>, log: seq<string>): (r: Option<State>)
    ensures r.Some? <==>
            SavedLinesWellFormed(log)
            && ((forall p :: p in w ==> IsSavedLine(p)) || EventLinesWellFormed(log))
    ensures r.Some? ==> r.value.Keys == (set p | p in w) + SavedPaths(log)
  {
    LoadSavedFails(Init(w), log);
    match LoadSaved(Init(w), log)
    case None => None
    case Some(m) =>
      LoadSavedKeys(Init(w), log);
      var ps := EventProjects(w);
      assert (forall p :: p in w ==> IsSavedLine(p)) <==> ps == [] by {
        if ps != [] {
          assert multiset(ps)[ps[0]] > 0;
        } else {
          forall p | p in w ensures IsSavedLine(p) {
            assert multiset(ps)[p] == 0;
          }
        }
      }
      if ps == [] then Some(m)
      else
        ParseEventsFails(log);
        match ParseEvents(log)
        case None => None
        case Some(evs) => Some(ScanAll(m, ps, evs))
  }
}

=== FILE: analysis.dfy ===
/** Properties of `analyzeLogFiles` as a whole: what an empty log, a single
    summary line and a burst of events produce; that the visiting order of
    the watchlist does not matter; how far a count can grow in one pass; and
    which lines each phase ignores. */
module Analysis {
  import opened Wrappers
  import opened Text
  import opened LogFormat
  import opened Aggregator

  // ---------------------------------------------------------------------
  // Building blocks

  lemma {:induction false} RepeatNoEvents(s: Summary, p: string, n: nat)
    ensures Repeat(s, p, [], n) == s
    decreases n
  {
    if n > 0 {
      RepeatNoEvents(s, p, n - 1);
    }
  }

  /** Without raw events the scan phase changes nothing. */
  lemma NoEventsNoChange(m: State, ps: seq<string>)
    requires forall p :: p in ps ==> p in m
    ensures ScanAll(m, ps, []) == m
  {
    var r := ScanAll(m, ps, []);
    forall k | k in m ensures r[k] == m[k] {
      RepeatNoEvents(m[k], k, multiset(ps)[k]);
    }
    SameMap(r, m);
  }

  /** Phase one over `a + b` is phase one over `a`, then over `b`. */
  lemma {:induction false} LoadSavedAppend(m: State, a: seq<string>, b: seq<string>)
    ensures LoadSaved(m, a + b)
            == match LoadSaved(m, a) case None => None case Some(x) => LoadSaved(x, b)
    decreases |a|
  {
    if |a| == 0 {
      assert a + b == b;
    } else {
      assert (a + b)[0] == a[0];
      assert (a + b)[1..] == a[1..] + b;
      if !IsSavedLine(a[0]) || IsBlank(a[0]) {
        LoadSavedAppend(m, a[1..], b);
      } else if ParseSaved(a[0]).Some? {
        var e := ParseSaved(a[0]).value;
        LoadSavedAppend(m[e.path := Summary(e.count, e.lastSeen)], a[1..], b);
      }
    }
  }

  /** Both event lists when both were read, `None` otherwise. */
  function Concat(x: Option<seq<Event>>, y: Option<seq<Event>>): Option<seq<Event>> {
    if x.Some? && y.Some? then Some(x.value + y.value) else None
  }

  /** What phase two makes of line `x` in front of lines already read as
      `r`. */
  function ConsEvent(x: string, r: Option<seq<Event>>): Option<seq<Event>> {
    if IsSavedLine(x) || IsBlank(x) then r
    else if ParseEvent(x).None? || r.None? then None
    else Some([ParseEvent(x).value] + r.value)
  }

  lemma ParseEventsCons(x: string, t: seq<string>)
    ensures ParseEvents([x] + t) == ConsEvent(x, ParseEvents(t))
  {
    assert ([x] + t)[0] == x;
    assert ([x] + t)[1..] == t;
  }

  lemma ConsEventConcat(x: string, u: Option<seq<Event>>, v: Option<seq<Event>>)
    ensures ConsEvent(x, Concat(u, v)) == Concat(ConsEvent(x, u), v)
  {
    if !(IsSavedLine(x) || IsBlank(x)) && ParseEvent(x).Some? && u.Some? && v.Some? {
      ConsAppend(ParseEvent(x).value, u.value, v.value);
    }
  }

  lemma ConsAppend(e: Event, x: seq<Event>, y: seq<Event>)
    ensures [e] + (x + y) == ([e] + x) + y
  {
  }

  /** Phase two over two pieces of a log reads the events of each piece in
      order, and fails if either piece fails. */
  lemma {:induction false} ParseEventsAppend(a: seq<string>, b: seq<string>)
    ensures ParseEvents(a + b) == Concat(ParseEvents(a), ParseEvents(b))
    decreases |a|
  {
    if |a| == 0 {
      assert a + b == b;
      if ParseEvents(b).Some? {
        assert [] + ParseEvents(b).value == ParseEvents(b).value;
      }
    } else {
      var x := a[0];
      var t := a[1..];
      assert a == [x] + t;
      assert a + b == [x] + (t + b);
      ParseEventsAppend(t, b);
      ParseEventsCons(x, t);
      ParseEventsCons(x, t + b);
      ConsEventConcat(x, ParseEvents(t), ParseEvents(b));
    }
  }

  /** Counting events under `p` after parsing agrees with counting the raw
      lines that read as such events. */
  lemma {:induction false} ParsedMatchCount(log: seq<string>, p: string)
    requires ParseEvents(log).Some?
    ensures MatchCount(ParseEvents(log).value, p) == MatchingLines(log, p)
    decreases |log|
  {
    if |log| > 0 {
      ParsedMatchCount(log[1..], p);
      if IsEventLine(log[0]) {
        var e := ParseEvent(log[0]).value;
        assert ParseEvents(log).value == [e] + ParseEvents(log[1..]).value;
        assert ParseEvents(log).value[1..] == ParseEvents(log[1..]).value;
      }
    }
  }

  lemma {:induction false} RepeatBounds(s: Summary, p: string, evs: seq<Event>, n: nat)
    ensures s.count <= Repeat(s, p, evs, n).count <= s.count + n * MatchCount(evs, p)
    decreases n
  {
    if n > 0 {
      var s' := ScanSummary(s, p, evs);
      RepeatBounds(s', p, evs, n - 1);
      assert n * MatchCount(evs, p) == (n - 1) * MatchCount(evs, p) + MatchCount(evs, p);
    }
  }

  /** The events the scan phase sees, or none when reading them failed. */
  function EventsOf(log: seq<string>): seq<Event> {
    if ParseEvents(log).Some? then ParseEvents(log).value else []
  }

  /** Each key of the result is its phase-one pair scanned once per time
      the project is visited. */
  lemma AnalyzeEntry(w: seq<string>, log: seq<string>, k: string)
    requires Analyze(w, log).Some?
    requires k in Analyze(w, log).value
    ensures LoadSaved(Init(w), log).Some?
    ensures k in LoadSaved(Init(w), log).value
    ensures Analyze(w, log).value[k]
            == Repeat(LoadSaved(Init(w), log).value[k], k, EventsOf(log), multiset(EventProjects(w))[k])
  {
    LoadSavedFails(Init(w), log);
    var loaded := LoadSaved(Init(w), log).value;
    LoadSavedKeys(Init(w), log);
    var ps := EventProjects(w);
    if ps == [] {
      assert multiset(ps)[k] == 0;
    }
  }

  // ---------------------------------------------------------------------
  // Properties

  /** With an empty log every watched project gets count 0 and last-seen 0,
      and nothing else appears. */
  lemma EmptyLog(w: seq<string>)
    ensures Analyze(w, []).Some?
    ensures Analyze(w, []).value.Keys == set p | p in w
    ensures forall p :: p in Analyze(w, []).value ==> Analyze(w, []).value[p] == Summary(0, 0)
  {
    var ps := EventProjects(w);
    if ps != [] {
      NoEventsNoChange(Init(w), ps);
    }
  }

  /** A summary line sets its path's pair, whether or not the path is
      watched; every watched project keeps its zero pair otherwise. */
  lemma SavedLineSetsEntry(w: seq<string>, p: string, count: int, lastSeen: int)
    requires IsTrimmed(p)
    ensures Analyze(w, [SavedLine(p, count, lastSeen)]) == Some(Init(w)[p := Summary(count, lastSeen)])
  {
    var line := SavedLine(p, count, lastSeen);
    SavedLineRoundTrip(p, count, lastSeen);
    SavedLineNotBlank(line);
    assert [line][1..] == [];
    var m := Init(w)[p := Summary(count, lastSeen)];
    assert LoadSaved(Init(w), [line]) == Some(m);
    var ps := EventProjects(w);
    if ps != [] {
      assert ParseEvents([line]) == Some([]);
      NoEventsNoChange(m, ps);
    }
  }

  /** Events that are not under `p`, or lie within `MinGap` of the last-seen
      time, neither add a session nor move the last-seen time. */
  lemma {:induction false} WindowAbsorbs(s: Summary, p: string, evs: seq<Event>)
    requires forall i :: 0 <= i < |evs| && StartsWith(evs[i].path, p) ==> Abs(evs[i].time - s.lastSeen) <= MinGap
    ensures ScanSummary(s, p, evs) == s
    decreases |evs|
  {
    if |evs| > 0 {
      assert Step(s, p, evs[0]) == s;
      assert forall i :: 0 <= i < |evs[1..]| ==> evs[1..][i] == evs[i + 1];
      WindowAbsorbs(s, p, evs[1..]);
    }
  }

  /** An event under `p` beyond the window always opens a session: the count
      grows and the last-seen time becomes the event's time before the rest
      of the events are looked at. */
  lemma {:induction false} GapOpensSession(s: Summary, p: string, e: Event, rest: seq<Event>)
    requires StartsWith(e.path, p) && Abs(e.time - s.lastSeen) > MinGap
    ensures ScanSummary(s, p, [e] + rest) == ScanSummary(Summary(s.count + 1, e.time), p, rest)
    ensures ScanSummary(s, p, [e] + rest).count >= s.count + 1
  {
    assert ([e] + rest)[0] == e;
    assert ([e] + rest)[1..] == rest;
  }

  /** Events at 0, 100, 200 and 400 seconds under one project add a single
      session: last-seen starts at 0, so the first three lie within the
      window and only the event at 400 counts. */
  lemma BurstExample()
    ensures ScanSummary(Summary(0, 0), "/p",
              [Event(0, "/p/f"), Event(100, "/p/f"), Event(200, "/p/f"), Event(400, "/p/f")])
            == Summary(1, 400)
  {
    var evs := [Event(0, "/p/f"), Event(100, "/p/f"), Event(200, "/p/f"), Event(400, "/p/f")];
    assert evs[1..] == [Event(100, "/p/f"), Event(200, "/p/f"), Event(400, "/p/f")];
    assert evs[1..][1..] == [Event(200, "/p/f"), Event(400, "/p/f")];
    assert evs[1..][1..][1..] == [Event(400, "/p/f")];
  }

  /** A file below a watched directory counts for it and not for an unrelated
      watched directory. The match is a plain prefix test, so a sibling
      directory whose name extends the project's also counts for it. */
  lemma PrefixExample()
    ensures Step(Summary(0, 0), "/home/u/proj", Event(1000, "/home/u/proj/sub/file.txt")) == Summary(1, 1000)
    ensures Step(Summary(0, 0), "/home/u/other", Event(1000, "/home/u/proj/sub/file.txt")) == Summary(0, 0)
    ensures Step(Summary(0, 0), "/home/u/proj", Event(1000, "/home/u/proj2/file.txt")) == Summary(1, 1000)
  {
    assert "/home/u/proj2/file.txt"[..|"/home/u/proj"|] == "/home/u/proj";
    assert "/home/u/proj/sub/file.txt"[..|"/home/u/proj"|] == "/home/u/proj";
    assert "/home/u/proj/sub/file.txt"[..|"/home/u/other"|] != "/home/u/other" by {
      assert "/home/u/proj/sub/file.txt"[8] != "/home/u/other"[8];
    }
  }

  /** Two listings of the same projects scan a record identically. */
  lemma ScanAllPermutation(m: State, ps1: seq<string>, ps2: seq<string>, evs: seq<Event>)
    requires multiset(ps1) == multiset(ps2)
    requires forall p :: p in ps1 ==> p in m
    ensures forall p :: p in ps2 ==> p in m
    ensures ScanAll(m, ps1, evs) == ScanAll(m, ps2, evs)
  {
    forall p | p in ps2 ensures p in m {
      assert p in multiset(ps2);
      assert p in multiset(ps1);
    }
    var r1 := ScanAll(m, ps1, evs);
    var r2 := ScanAll(m, ps2, evs);
    forall k | k in m ensures r1[k] == r2[k] {
      assert multiset(ps1)[k] == multiset(ps2)[k];
    }
    SameMap(r1, r2);
  }

  /** Equal multisets of watched projects give equal lists to scan, up to
      order. */
  lemma EventProjectsPermutation(w1: seq<string>, w2: seq<string>)
    requires multiset(w1) == multiset(w2)
    ensures multiset(EventProjects(w1)) == multiset(EventProjects(w2))
    ensures EventProjects(w1) == [] <==> EventProjects(w2) == []
  {
    var ps1 := EventProjects(w1);
    var ps2 := EventProjects(w2);
    forall p ensures multiset(ps1)[p] == multiset(ps2)[p] {
      assert multiset(w1)[p] == multiset(w2)[p];
    }
    assert multiset(ps1) == multiset(ps2);
    assert |ps1| == |multiset(ps1)| == |multiset(ps2)| == |ps2|;
  }

  lemma InitPermutation(w1: seq<string>, w2: seq<string>)
    requires multiset(w1) == multiset(w2)
    ensures Init(w1) == Init(w2)
  {
    forall p ensures p in w1 <==> p in w2 {
      assert p in w1 <==> p in multiset(w1);
      assert p in w2 <==> p in multiset(w2);
    }
    assert Init(w1).Keys == Init(w2).Keys;
  }

  /** The result depends on how often each project is watched, not on the
      order in which the watchlist lists them. */
  lemma OrderIndependent(w1: seq<string>, w2: seq<string>, log: seq<string>)
    requires multiset(w1) == multiset(w2)
    ensures Analyze(w1, log) == Analyze(w2, log)
  {
    InitPermutation(w1, w2);
    EventProjectsPermutation(w1, w2);
    var loaded := LoadSaved(Init(w1), log);
    var ps1 := EventProjects(w1);
    if loaded.Some? && ps1 != [] && ParseEvents(log).Some? {
      ScanAllPermutation(loaded.value, ps1, EventProjects(w2), ParseEvents(log).value);
    }
  }

  /** In one pass a project's count never falls below the count its summary
      line gave it, and grows by at most the number of raw event lines under
      it for each time it is watched; with a duplicate-free watchlist, by at
      most that number. */
  lemma AnalyzeMonotone(w: seq<string>, log: seq<string>, p: string)
    requires Analyze(w, log).Some? && p in w
    ensures LoadSaved(Init(w), log).Some?
    ensures LoadSaved(Init(w), log).value[p].count <= Analyze(w, log).value[p].count
    ensures Analyze(w, log).value[p].count
            <= LoadSaved(Init(w), log).value[p].count + multiset(w)[p] * MatchingLines(log, p)
    ensures Distinct(w) ==>
              Analyze(w, log).value[p].count <= LoadSaved(Init(w), log).value[p].count + MatchingLines(log, p)
  {
    assert p in Analyze(w, log).value;
    AnalyzeEntry(w, log, p);
    var loaded := LoadSaved(Init(w), log).value;
    RepeatBounds(loaded[p], p, EventsOf(log), multiset(EventProjects(w))[p]);
    GrowthBound(w, log, p);
    if Distinct(w) {
      DistinctOccursOnce(w, p);
      MulMonotone(multiset(w)[p], 1, MatchingLines(log, p));
    }
  }

  /** A successful analysis with a scanned project has read its events. */
  lemma AnalyzeReadsEvents(w: seq<string>, log: seq<string>)
    requires Analyze(w, log).Some? && EventProjects(w) != []
    ensures ParseEvents(log).Some?
  {
  }

  lemma GrowthBound(w: seq<string>, log: seq<string>, p: string)
    requires Analyze(w, log).Some? && p in w
    ensures multiset(EventProjects(w))[p] * MatchCount(EventsOf(log), p)
            <= multiset(w)[p] * MatchingLines(log, p)
  {
    var n := multiset(EventProjects(w))[p];
    var total := multiset(w)[p];
    var lines := MatchingLines(log, p);
    if n > 0 {
      assert EventProjects(w) != [];
      AnalyzeReadsEvents(w, log);
      ParsedMatchCount(log, p);
      MulMonotone(n, total, lines);
    } else {
      assert n * MatchCount(EventsOf(log), p) == 0 * MatchCount(EventsOf(log), p);
      MulMonotone(0, total, lines);
    }
  }

  lemma MulMonotone(a: nat, b: nat, c: nat)
    requires a <= b
    ensures a * c <= b * c
  {
  }

  /** A blank line changes nothing, wherever it sits in the log. */
  lemma BlankLineIgnored(w: seq<string>, a: seq<string>, line: string, b: seq<string>)
    requires IsBlank(line)
    ensures Analyze(w, a + [line] + b) == Analyze(w, a + b)
  {
    assert !IsSavedLine(line) by {
      if IsSavedLine(line) { SavedLineNotBlank(line); }
    }
    assert a + [line] + b == a + ([line] + b);
    assert ([line] + b)[1..] == b;
    LoadSavedAppend(Init(w), a, [line] + b);
    LoadSavedAppend(Init(w), a, b);
    ParseEventsAppend(a, [line] + b);
    ParseEventsAppend(a, b);
  }

  /** Summary lines are never read as events: adding one changes only the
      first phase. */
  lemma SavedLineNotEvent(a: seq<string>, line: string, b: seq<string>)
    requires IsSavedLine(line)
    ensures ParseEvents(a + [line] + b) == ParseEvents(a + b)
  {
    assert a + [line] + b == a + ([line] + b);
    assert ([line] + b)[1..] == b;
    ParseEventsAppend(a, [line] + b);
    ParseEventsAppend(a, b);
  }

  /** Raw event lines are never read as summaries: adding one changes only
      the second phase. */
  lemma EventLineNotSaved(m: State, a: seq<string>, line: string, b: seq<string>)
    requires !IsSavedLine(line)
    ensures LoadSaved(m, a + [line] + b) == LoadSaved(m, a + b)
  {
    assert a + [line] + b == a + ([line] + b);
    assert ([line] + b)[1..] == b;
    LoadSavedAppend(m, a, [line] + b);
    LoadSavedAppend(m, a, b);
  }
}

=== FILE: flatdict.dfy ===
/** `analyzeLogFiles` exactly as written, over one flat dictionary: a
    project's count sits under `project` and its last-seen time under
    `project + "_lt"`, and `--stats` reports every key that does not end in
    `_lt`. While no project or summary path ends in `_lt` this agrees with
    the record model in `Aggregator`; a project that does end in `_lt`
    collides with another project's last-seen slot. */
module FlatDict {
  import opened Wrappers
  import opened Text
  import opened LogFormat
  import opened Aggregator
  import Analysis

  const LtSuffix := "_lt"

  type Dict = map<string, int>

  function Lt(p: string): string {
    p + LtSuffix
  }

  /** The two slots of each watched project. */
  function Slots(w: seq<string>): set<string> {
    (set p | p in w) + (set p | p in w :: Lt(p))
  }

  /** Both slots of every watched project hold 0. */
  function InitFlat(w: seq<string>): (d: Dict)
    ensures forall p :: p in w ==> p in d && Lt(p) in d
  {
    map k | k in Slots(w) :: 0
  }

  /** Phase one: `data[path + "_lt"] = last` and then `data[path] = saved`. */
  function LoadSavedFlat(d: Dict, log: seq<string>): (r: Option<Dict>)
    ensures r.Some? ==> d.Keys <= r.value.Keys
    decreases |log|
  {
    if |log| == 0 then Some(d)
    else if !IsSavedLine(log[0]) || IsBlank(log[0]) then LoadSavedFlat(d, log[1..])
    else
      match ParseSaved(log[0])
      case None => None
      case Some(e) => LoadSavedFlat(d[Lt(e.path) := e.lastSeen][e.path := e.count], log[1..])
  }

  function StepFlat(d: Dict, p: string, e: Event): (r: Dict)
    requires p in d && Lt(p) in d
    ensures r.Keys == d.Keys
  {
    if StartsWith(e.path, p) && Abs(e.time - d[Lt(p)]) > MinGap
    then d[p := d[p] + 1][Lt(p) := e.time]
    else d
  }

  function ScanFlat(d: Dict, p: string, evs: seq<Event>): (r: Dict)
    requires p in d && Lt(p) in d
    ensures r.Keys == d.Keys
    decreases |evs|
  {
    if |evs| == 0 then d else ScanFlat(StepFlat(d, p, evs[0]), p, evs[1..])
  }

  function ScanAllFlat(d: Dict, ps: seq<string>, evs: seq<Event>): (r: Dict)
    requires forall p :: p in ps ==> p in d && Lt(p) in d
    ensures r.Keys == d.Keys
    decreases |ps|
  {
    if |ps| == 0 then d else ScanAllFlat(ScanFlat(d, ps[0], evs), ps[1..], evs)
  }

  function AnalyzeFlat(w: seq<string>, log: seq<string>): Option<Dict>
  {
    match LoadSavedFlat(InitFlat(w), log)
    case None => None
    case Some(d) =>
      var ps := EventProjects(w);
      if ps == [] then Some(d)
      else
        match ParseEvents(log)
        case None => None
        case Some(evs) => Some(ScanAllFlat(d, ps, evs))
  }

  /** The projects `--stats` reports: the keys not ending in `_lt`. */
  function ReportedFlat(d: Dict): set<string> {
    set k | k in d && !EndsWith(k, LtSuffix)
  }

  // ---------------------------------------------------------------------
  // Agreement with the record model

  predicate NoLt(keys: set<string>) {
    forall k :: k in keys ==> !EndsWith(k, LtSuffix)
  }

  /** `d` is the flat encoding of `m`. */
  ghost predicate Encodes(d: Dict, m: State) {
    && d.Keys == m.Keys + (set k | k in m :: Lt(k))
    && (forall k :: k in m ==> d[k] == m[k].count && d[Lt(k)] == m[k].lastSeen)
  }

  lemma LtShape(k: string)
    ensures EndsWith(Lt(k), LtSuffix)
    ensures Lt(k)[..|k|] == k
  {
  }

  lemma LtInjective(a: string, b: string)
    requires Lt(a) == Lt(b)
    ensures a == b
  {
    LtShape(a);
    LtShape(b);
  }

  /** Overwriting one pair keeps the encoding, as long as no key ends in
      `_lt`. */
  lemma EncodesUpdate(d: Dict, m: State, p: string, count: int, lastSeen: int)
    requires Encodes(d, m) && NoLt(m.Keys) && !EndsWith(p, LtSuffix)
    ensures Encodes(d[Lt(p) := lastSeen][p := count], m[p := Summary(count, lastSeen)])
  {
    var d' := d[Lt(p) := lastSeen][p := count];
    var m' := m[p := Summary(count, lastSeen)];
    LtShape(p);
    forall k | k in m' ensures d'[k] == m'[k].count && d'[Lt(k)] == m'[k].lastSeen {
      LtShape(k);
      if k != p {
        assert k != Lt(p);
        assert Lt(k) != p;
        if Lt(k) == Lt(p) { LtInjective(k, p); }
      }
    }
    assert d'.Keys == m'.Keys + (set k | k in m' :: Lt(k));
  }

  lemma EncodesInit(w: seq<string>)
    ensures Encodes(InitFlat(w), Init(w))
  {
  }

  lemma {:induction false} LoadSavedEncodes(d: Dict, m: State, log: seq<string>)
    requires Encodes(d, m) && NoLt(m.Keys) && NoLt(SavedPaths(log))
    ensures LoadSavedFlat(d, log).Some? <==> LoadSaved(m, log).Some?
    ensures LoadSaved(m, log).Some? ==>
              Encodes(LoadSavedFlat(d, log).value, LoadSaved(m, log).value)
              && NoLt(LoadSaved(m, log).value.Keys)
    decreases |log|
  {
    if |log| > 0 {
      assert SavedPaths(log[1..]) <= SavedPaths(log);
      if !IsSavedLine(log[0]) || IsBlank(log[0]) {
        LoadSavedEncodes(d, m, log[1..]);
      } else if ParseSaved(log[0]).Some? {
        var e := ParseSaved(log[0]).value;
        assert e.path in SavedPaths(log);
        EncodesUpdate(d, m, e.path, e.count, e.lastSeen);
        LoadSavedEncodes(d[Lt(e.path) := e.lastSeen][e.path := e.count],
                         m[e.path := Summary(e.count, e.lastSeen)], log[1..]);
      }
    }
  }

  /** One event moves the flat dictionary and the record in step. */
  lemma StepEncodes(d: Dict, m: State, p: string, e: Event)
    requires Encodes(d, m) && NoLt(m.Keys) && p in m
    ensures p in d && Lt(p) in d
    ensures m[p := Step(m[p], p, e)].Keys == m.Keys
    ensures Encodes(StepFlat(d, p, e), m[p := Step(m[p], p, e)])
  {
    var s := Step(m[p], p, e);
    var d1 := StepFlat(d, p, e);
    assert m[p := s].Keys == m.Keys;
    if s != m[p] {
      LtShape(p);
      SwapUpdates(d, p, Lt(p), d[p] + 1, e.time);
      assert d1 == d[Lt(p) := s.lastSeen][p := s.count];
      EncodesUpdate(d, m, p, s.count, s.lastSeen);
    } else {
      assert d1 == d;
      SameMap(m[p := s], m);
    }
  }

  lemma {:induction false} ScanEncodes(d: Dict, m: State, p: string, evs: seq<Event>)
    requires Encodes(d, m) && NoLt(m.Keys) && p in m
    ensures p in d && Lt(p) in d
    ensures Encodes(ScanFlat(d, p, evs), Scan(m, p, evs))
    decreases |evs|
  {
    assert Lt(p) in (set k | k in m :: Lt(k));
    if |evs| > 0 {
      StepEncodes(d, m, p, evs[0]);
      ScanEncodes(StepFlat(d, p, evs[0]), m[p := Step(m[p], p, evs[0])], p, evs[1..]);
    }
  }

  /** Updates of two different keys commute. */
  lemma SwapUpdates(d: Dict, a: string, b: string, va: int, vb: int)
    requires a != b
    ensures d[a := va][b := vb] == d[b := vb][a := va]
  {
  }

  lemma {:induction false} ScanAllEncodes(d: Dict, m: State, ps: seq<string>, evs: seq<Event>)
    requires Encodes(d, m) && NoLt(m.Keys)
    requires forall p :: p in ps ==> p in m
    ensures forall p :: p in ps ==> p in d && Lt(p) in d
    ensures Encodes(ScanAllFlat(d, ps, evs), ScanAll(m, ps, evs))
    decreases |ps|
  {
    if |ps| > 0 {
      ScanEncodes(d, m, ps[0], evs);
      ScanAllEncodes(ScanFlat(d, ps[0], evs), Scan(m, ps[0], evs), ps[1..], evs);
    }
  }

  /** The keys `--stats` reports from an encoding are the record's keys. */
  lemma ReportedEncoded(d: Dict, m: State)
    requires Encodes(d, m) && NoLt(m.Keys)
    ensures ReportedFlat(d) == m.Keys
  {
    forall k | k in d ensures k in ReportedFlat(d) <==> k in m {
      if k !in m {
        var k0 :| k0 in m && k == Lt(k0);
        LtShape(k0);
      }
    }
  }

  lemma AnalyzeFlatEncodes(w: seq<string>, log: seq<string>)
    requires forall p :: p in w ==> !EndsWith(p, LtSuffix)
    requires NoLt(SavedPaths(log))
    ensures AnalyzeFlat(w, log).Some? <==> Analyze(w, log).Some?
    ensures Analyze(w, log).Some? ==> Encodes(AnalyzeFlat(w, log).value, Analyze(w, log).value)
  {
    EncodesInit(w);
    LoadSavedEncodes(InitFlat(w), Init(w), log);
    if LoadSaved(Init(w), log).Some? {
      var m := LoadSaved(Init(w), log).value;
      var d := LoadSavedFlat(InitFlat(w), log).value;
      var ps := EventProjects(w);
      if ps != [] && ParseEvents(log).Some? {
        ScanAllEncodes(d, m, ps, ParseEvents(log).value);
      }
    }
  }

  /** While no watched project and no summary path ends in `_lt`, the flat
      dictionary is exactly the encoding of the record model's result, and
      `--stats` reports exactly the record's keys. */
  lemma AnalyzeFlatAgrees(w: seq<string>, log: seq<string>)
    requires forall p :: p in w ==> !EndsWith(p, LtSuffix)
    requires NoLt(SavedPaths(log))
    ensures AnalyzeFlat(w, log).Some? <==> Analyze(w, log).Some?
    ensures Analyze(w, log).Some? ==> Encodes(AnalyzeFlat(w, log).value, Analyze(w, log).value)
    ensures Analyze(w, log).Some? ==> ReportedFlat(AnalyzeFlat(w, log).value) == Analyze(w, log).value.Keys
  {
    AnalyzeFlatEncodes(w, log);
    if Analyze(w, log).Some? {
      var m := Analyze(w, log).value;
      assert NoLt(m.Keys);
      ReportedEncoded(AnalyzeFlat(w, log).value, m);
    }
  }

  // ---------------------------------------------------------------------
  // The collision

  lemma {:induction false} ScanAllFlatNoEvents(d: Dict, ps: seq<string>)
    requires forall p :: p in ps ==> p in d && Lt(p) in d
    ensures ScanAllFlat(d, ps, []) == d
    decreases |ps|
  {
    if |ps| > 0 {
      ScanAllFlatNoEvents(ScanFlat(d, ps[0], []), ps[1..]);
    }
  }

  /** With an empty log the flat dictionary is its initial state. */
  lemma AnalyzeFlatEmptyLog(w: seq<string>)
    ensures AnalyzeFlat(w, []) == Some(InitFlat(w))
  {
    var ps := EventProjects(w);
    if ps != [] {
      ScanAllFlatNoEvents(InitFlat(w), ps);
    }
  }

  /** Watching a project `p` next to `p + "_lt"`: the report skips every key
      ending in `_lt`, so the second project is never reported (and never
      re-saved), although the record model reports both. Its count also
      shares a slot with the first project's last-seen time; this lemma does
      not state that second effect. */
  lemma LtCollision(p: string)
    ensures AnalyzeFlat([p, Lt(p)], []).Some?
    ensures Lt(p) !in ReportedFlat(AnalyzeFlat([p, Lt(p)], []).value)
    ensures Analyze([p, Lt(p)], []).Some?
    ensures Lt(p) in Analyze([p, Lt(p)], []).value
  {
    var w := [p, Lt(p)];
    AnalyzeFlatEmptyLog(w);
    LtShape(p);
    Analysis.EmptyLog(w);
    assert Lt(p) == w[1];
  }
}

=== FILE: logformat.dfy ===
/** The two kinds of lines in the watch log: summary lines
    `saved <count> <last> <path>` written by `--stats`, and raw event lines
    `<timestamp> <path>` appended by the daemon. */
module LogFormat {
  import opened Wrappers
  import opened Text
  import opened Numbers

  /** Width of the timestamp field the reader slices off an event line. */
  const StampWidth: nat := 10

  /** A line is a summary line exactly when it starts with `saved`; the word
      need not be followed by a space. */
  predicate IsSavedLine(line: string) {
    StartsWith(line, "saved")
  }

  /** A raw event line: neither a summary line nor blank. */
  predicate IsEventLine(line: string) {
    !IsSavedLine(line) && !IsBlank(line)
  }

  lemma SavedLineNotBlank(line: string)
    requires IsSavedLine(line)
    ensures !IsBlank(line)
  {
    BlankIsAllSpace(line);
    assert line[0] == 's';
  }

  datatype SavedEntry = SavedEntry(path: string, count: int, lastSeen: int)

  datatype Event = Event(time: int, path: string)

  /** At least three pieces, the second and third of them numerals. */
  predicate FieldsReadable(parts: seq<string>) {
    |parts| >= 3 && ParseInt(parts[1]).Some? && ParseInt(parts[2]).Some?
  }

  /** Reads a summary line: split at single spaces, the second and third
      pieces are the count and the last-seen time, and the pieces from the
      fourth on, re-joined with spaces and stripped, are the path. Too few
      pieces or a non-numeric field raise in the source. */
  function ParseSaved(line: string): (r: Option<SavedEntry>)
    ensures r.Some? ==> IsTrimmed(r.value.path)
    ensures r.Some? ==> |Split(line)| >= 3
    ensures r.Some? <==> FieldsReadable(Split(line))
  {
    var parts := Split(line);
    if |parts| < 3 then None
    else
      match ParseInt(parts[1])
      case None => None
      case Some(count) =>
        match ParseInt(parts[2])
        case None => None
        case Some(last) => Some(SavedEntry(Trim(Join(parts[3..])), count, last))
  }

  /** The summary line `--stats` saves for one project. */
  function SavedLine(path: string, count: int, lastSeen: int): string
  {
    "saved" + " " + IntToString(count) + " " + IntToString(lastSeen) + " " + path
  }

  lemma SavedLineIsSaved(path: string, count: int, lastSeen: int)
    ensures IsSavedLine(SavedLine(path, count, lastSeen))
  {
    assert SavedLine(path, count, lastSeen)[..5] == "saved";
  }

  /** Four words joined by single spaces, regrouped from the right. */
  lemma FourWords(a: string, b: string, c: string, d: string)
    ensures a + " " + b + " " + c + " " + d == a + " " + (b + " " + (c + " " + d))
  {
  }

  lemma ThreePieces(a: string, b: string, c: string, rest: seq<string>)
    ensures [a] + ([b] + ([c] + rest)) == [a, b, c] + rest
  {
  }

  lemma SavedWordNoSpace()
    ensures NoSpace("saved")
  {
  }

  /** The pieces `split(" ")` finds in a summary line. */
  lemma SavedLinePieces(path: string, count: int, lastSeen: int)
    ensures Split(SavedLine(path, count, lastSeen))
            == ["saved", IntToString(count), IntToString(lastSeen)] + Split(path)
  {
    var c := IntToString(count);
    var l := IntToString(lastSeen);
    var tail := l + " " + path;
    var body := c + " " + tail;
    IntToStringShape(count);
    IntToStringShape(lastSeen);
    FourWords("saved", c, l, path);
    SplitAfterWord(l, path);
    SplitAfterWord(c, tail);
    SavedWordNoSpace();
    SplitAfterWord("saved", body);
    ThreePieces("saved", c, l, Split(path));
  }

  /** A saved summary reads back as the same path, count and last-seen time,
      provided the path has no surrounding whitespace (the reader strips it). */
  lemma SavedLineRoundTrip(path: string, count: int, lastSeen: int)
    requires IsTrimmed(path)
    ensures IsSavedLine(SavedLine(path, count, lastSeen))
    ensures ParseSaved(SavedLine(path, count, lastSeen)) == Some(SavedEntry(path, count, lastSeen))
  {
    var line := SavedLine(path, count, lastSeen);
    assert line[..5] == "saved";
    var parts := Split(line);
    SavedLinePieces(path, count, lastSeen);
    assert parts[1] == IntToString(count);
    assert parts[2] == IntToString(lastSeen);
    assert parts[3..] == Split(path);
    IntRoundTrip(count);
    IntRoundTrip(lastSeen);
    JoinSplit(path);
    assert Trim(Join(parts[3..])) == path;
  }

  function Min(a: nat, b: nat): nat {
    if a <= b then a else b
  }

  /** Reads an event line the way the source slices it: the first ten
      characters are the timestamp, the eleventh is skipped, and the rest is
      the path. Short lines are sliced, not rejected; a non-numeric stamp
      raises in the source. */
  function ParseEvent(line: string): (r: Option<Event>)
    ensures r.Some? ==> |r.value.path| == |line| - Min(StampWidth + 1, |line|)
    ensures r.Some? ==> r.value.path == line[|line| - |r.value.path|..]
    ensures r.Some? <==> ParseInt(line[..Min(StampWidth, |line|)]).Some?
    ensures r.Some? ==> r.value.time == ParseInt(line[..Min(StampWidth, |line|)]).value
  {
    match ParseInt(line[..Min(StampWidth, |line|)])
    case None => None
    case Some(t) => Some(Event(t, line[Min(StampWidth + 1, |line|)..]))
  }

  /** The line the daemon appends for a filesystem event at time `t`. */
  function EventLine(t: int, path: string): string
  {
    IntToString(t) + " " + path
  }

  /** The daemon's lines are always taken as events, never as summaries. */
  lemma EventLineIsEvent(t: int, path: string)
    ensures IsEventLine(EventLine(t, path))
  {
    IntToStringShape(t);
    var line := EventLine(t, path);
    assert line[0] == IntToString(t)[0];
    assert line[0] != 's';
    BlankIsAllSpace(line);
    assert !IsSpace(line[0]);
  }

  /** An event line reads back as its timestamp and path when the timestamp
      has exactly ten digits (the seconds from 2001-09-09 to 2286-11-20). */
  lemma EventLineRoundTrip(t: int, path: string)
    requires Pow10(StampWidth - 1) <= t < Pow10(StampWidth)
    ensures ParseEvent(EventLine(t, path)) == Some(Event(t, path))
  {
    NumeralLength(t, StampWidth);
    var line := EventLine(t, path);
    assert line[..StampWidth] == IntToString(t);
    assert line[StampWidth + 1..] == path;
    IntRoundTrip(t);
  }

  /** Stripping a space-free text followed by one space gives the text back. */
  lemma TrimTrailingSpace(n: string)
    requires |n| > 0 && forall j :: 0 <= j < |n| ==> !IsSpace(n[j])
    ensures Trim(n + " ") == n
  {
    var s := n + " ";
    assert s[0] == n[0];
    var l := TrimLeft(s);
    assert |l| == |s|;
    assert l == s;
    var r := TrimRight(l);
    assert |r| < |s|;
    assert forall k :: 0 <= k < |n| ==> !IsSpace(s[k]);
    assert IsSpace(s[|r|]);
    assert |r| >= |n|;
    assert r == s[..|n|];
  }

  /** A nine-digit timestamp still reads back whole, because `int()` strips
      the separator that the ten-character slice takes in; the path then
      starts one character late and loses its first character. */
  lemma ShortStampDropsPathChar(t: int, path: string)
    requires Pow10(StampWidth - 2) <= t < Pow10(StampWidth - 1)
    requires |path| > 0
    ensures ParseEvent(EventLine(t, path)) == Some(Event(t, path[1..]))
  {
    NumeralLength(t, StampWidth - 1);
    IntToStringShape(t);
    var n := IntToString(t);
    var line := EventLine(t, path);
    assert line[..StampWidth] == n + " ";
    assert line[StampWidth + 1..] == path[1..];
    TrimTrailingSpace(n);
    IntRoundTrip(t);
  }

  /** With a stamp of eight digits or fewer, the ten-character slice takes in
      the separator and the start of the path; for a path starting with `/`
      `int()` then raises, and with it the whole analysis. */
  lemma ShortStampRaises(t: int, path: string)
    requires 0 <= t < Pow10(StampWidth - 2)
    requires |path| > 0 && path[0] == '/'
    ensures ParseEvent(EventLine(t, path)).None?
  {
    NumeralAtMost(t, StampWidth - 2);
    var n := IntToString(t);
    var line := EventLine(t, path);
    var x := line[..Min(StampWidth, |line|)];
    var p := |n| + 1;
    assert x[0] == n[0] && IsDigit(x[0]);
    assert x[p] == '/';
    var l := TrimLeft(x);
    assert |l| == |x|;
    assert l == x;
    var r := TrimRight(l);
    assert !IsSpace(x[p]);
    assert p < |r| && r[p] == '/';
    assert !IsDigit(r[p]);
    assert !IsDigits(r);
    assert r[1..][p - 1] == '/';
    assert !IsDigits(r[1..]);
  }

  /** For an empty path the line the daemon builds ends with the separator,
      which the strip in `addToFile` removes: the stored line is the bare
      numeral. */
  lemma EmptyPathStripped(t: int)
    ensures Trim(EventLine(t, "")) == IntToString(t)
    ensures Trim(EventLine(t, "")) != EventLine(t, "")
  {
    IntToStringShape(t);
    assert EventLine(t, "") == IntToString(t) + " ";
    TrimTrailingSpace(IntToString(t));
  }
}

=== FILE: numbers.dfy ===
/** Decimal integers as Python 2 reads them with `int(s)` and writes them
    with `str(i)`. */
module Numbers {
  import opened Wrappers
  import opened Text

  predicate IsDigit(c: char) {
    '0' <= c <= '9'
  }

  predicate IsDigits(s: string) {
    forall i :: 0 <= i < |s| ==> IsDigit(s[i])
  }

  function DigitValue(c: char): nat
    requires IsDigit(c)
  {
    c as int - '0' as int
  }

  function DigitChar(d: nat): (c: char)
    requires d < 10
    ensures IsDigit(c) && DigitValue(c) == d
  {
    ('0' as int + d) as char
  }

  /** The value of a string of decimal digits, most significant first. */
  function DigitsValue(s: string): nat
    requires IsDigits(s)
    decreases |s|
  {
    if |s| == 0 then 0 else DigitsValue(s[..|s| - 1]) * 10 + DigitValue(s[|s| - 1])
  }

  function Pow10(k: nat): nat
  {
    if k == 0 then 1 else 10 * Pow10(k - 1)
  }

  /** The decimal numeral of `n` (Python `str(n)` for n >= 0): digits only,
      no leading zero, and it denotes `n`. */
  function NatToString(n: nat): (r: string)
    ensures |r| > 0 && IsDigits(r)
    ensures |r| > 1 ==> r[0] != '0'
    ensures DigitsValue(r) == n
    decreases n
  {
    if n < 10 then [DigitChar(n)]
    else
      var r := NatToString(n / 10) + [DigitChar(n % 10)];
      assert r[..|r| - 1] == NatToString(n / 10);
      r
  }

  /** Python `str(i)`: a minus sign for negative numbers, then the numeral. */
  function IntToString(i: int): (r: string)
  {
    if i < 0 then "-" + NatToString(-i) else NatToString(i)
  }

  function ParseUnsigned(s: string): Option<nat>
  {
    if |s| > 0 && IsDigits(s) then Some(DigitsValue(s)) else None
  }

  /** Python `int(s)`: surrounding whitespace is ignored, then an optional
      sign and at least one decimal digit; anything else raises, modelled as
      `None`. */
  function ParseInt(s: string): (r: Option<int>)
    ensures r.Some? <==> var t := Trim(s);
              (|t| > 0 && IsDigits(t)) || (|t| > 1 && (t[0] == '-' || t[0] == '+') && IsDigits(t[1..]))
  {
    var t := Trim(s);
    if |t| > 0 && (t[0] == '-' || t[0] == '+') then
      match ParseUnsigned(t[1..])
      case None => None
      case Some(v) =>
        Some(if t[0] == '-' then 0 - v as int else v as int)
    else
      match ParseUnsigned(t)
      case None => None
      case Some(v) => Some(v)
  }

  /** A numeral written by `str` carries no whitespace and no space. */
  lemma IntToStringShape(i: int)
    ensures |IntToString(i)| > 0 && IsTrimmed(IntToString(i)) && NoSpace(IntToString(i))
    ensures IntToString(i)[0] == '-' || IsDigit(IntToString(i)[0])
    ensures forall j :: 0 < j < |IntToString(i)| ==> IsDigit(IntToString(i)[j])
  {
  }

  /** `int(str(i)) == i` for every integer. */
  lemma IntRoundTrip(i: int)
    ensures ParseInt(IntToString(i)) == Some(i)
  {
    IntToStringShape(i);
    var s := IntToString(i);
    if i < 0 {
      assert s[1..] == NatToString(-i);
    }
  }

  /** A numeral has exactly `k` digits when `n` lies in `[10^(k-1), 10^k)`. */
  lemma {:induction false} NumeralLength(n: nat, k: nat)
    requires k >= 1 && Pow10(k - 1) <= n < Pow10(k)
    ensures |NatToString(n)| == k
    decreases k
  {
    if k == 1 {
    } else {
      assert Pow10(k - 1) == 10 * Pow10(k - 2);
      assert n >= 10;
      assert Pow10(k - 2) <= n / 10 < Pow10(k - 1);
      NumeralLength(n / 10, k - 1);
    }
  }

  /** A number below `10^k` has a numeral of at most `k` digits. */
  lemma {:induction false} NumeralAtMost(n: nat, k: nat)
    requires k >= 1 && n < Pow10(k)
    ensures |NatToString(n)| <= k
    decreases k
  {
    if n >= 10 {
      assert k >= 2;
      assert Pow10(k) == 10 * Pow10(k - 1);
      assert n / 10 < Pow10(k - 1);
      NumeralAtMost(n / 10, k - 1);
    }
  }
}

=== FILE: stats.dfy ===
/** The `--stats` branch: one report line `Aprox. <seconds>s<TAB><project>`
    per entry of the analysis, and the compacted log that replaces the old
    one, holding a single summary line per entry. */
module Stats {
  import opened Wrappers
  import opened Text
  import opened Numbers
  import opened LogFormat
  import opened Aggregator
  import opened Analysis

  /** `ks` lists every key of `m` exactly once, in some order (the source
      walks the dictionary's keys in an unspecified order). */
  ghost predicate Enumerates(ks: seq<string>, m: State) {
    Distinct(ks) && forall k :: k in ks <==> k in m
  }

  /** The time charged for `count` sessions: a flat five minutes each. */
  function Estimate(count: int): int {
    count * MinGap
  }

  /** The compacted log: one summary line per listed key, and nothing else,
      so every raw event is dropped. */
  function Compact(m: State, ks: seq<string>): (log: seq<string>)
    requires forall k :: k in ks ==> k in m
    ensures |log| == |ks|
    decreases |ks|
  {
    if |ks| == 0 then []
    else [SavedLine(ks[0], m[ks[0]].count, m[ks[0]].lastSeen)] + Compact(m, ks[1..])
  }

  /** The `i`-th line of the compacted log saves the `i`-th listed key. */
  lemma {:induction false} CompactAt(m: State, ks: seq<string>, i: nat)
    requires forall k :: k in ks ==> k in m
    requires i < |ks|
    ensures Compact(m, ks)[i] == SavedLine(ks[i], m[ks[i]].count, m[ks[i]].lastSeen)
    decreases i
  {
    if i > 0 {
      CompactAt(m, ks[1..], i - 1);
      assert Compact(m, ks)[i] == Compact(m, ks[1..])[i - 1];
      assert ks[1..][i - 1] == ks[i];
    }
  }

  /** The compacted log holds summary lines only. */
  lemma CompactSaved(m: State, ks: seq<string>)
    requires forall k :: k in ks ==> k in m
    ensures forall i :: 0 <= i < |ks| ==> IsSavedLine(Compact(m, ks)[i])
  {
    forall i | 0 <= i < |ks| ensures IsSavedLine(Compact(m, ks)[i]) {
      CompactAt(m, ks, i);
      SavedLineIsSaved(ks[i], m[ks[i]].count, m[ks[i]].lastSeen);
    }
  }

  const ReportTag := "Aprox. "

  function ReportLine(p: string, s: Summary): string {
    ReportTag + (IntToString(Estimate(s.count)) + "s\t" + p)
  }

  /** The printed report, one line per listed key. */
  function Report(m: State, ks: seq<string>): (lines: seq<string>)
    requires forall k :: k in ks ==> k in m
    ensures |lines| == |ks|
    ensures forall i :: 0 <= i < |ks| ==> lines[i] == ReportLine(ks[i], m[ks[i]])
    decreases |ks|
  {
    if |ks| == 0 then [] else [ReportLine(ks[0], m[ks[0]])] + Report(m, ks[1..])
  }

  /** The position of the first `c` in `s`, or `|s|` when there is none. */
  function IndexOf(s: string, c: char): (i: nat)
    ensures i <= |s|
    ensures forall j :: 0 <= j < i ==> s[j] != c
    ensures i < |s| ==> s[i] == c
    decreases |s|
  {
    if |s| == 0 then 0 else if s[0] == c then 0 else 1 + IndexOf(s[1..], c)
  }

  /** Reads a report line back into its seconds and its project. */
  function ParseReportLine(line: string): Option<(int, string)>
  {
    if !StartsWith(line, ReportTag) then None
    else
      var rest := line[|ReportTag|..];
      var i := IndexOf(rest, 's');
      if i + 1 < |rest| && rest[i + 1] == '\t' then
        match ParseInt(rest[..i])
        case None => None
        case Some(secs) => Some((secs, rest[i + 2..]))
      else None
  }

  /** The first `s` of a report line's tail ends the numeral. */
  lemma ReportTail(n: string, p: string)
    requires |n| > 0 && (n[0] == '-' || IsDigit(n[0]))
    requires forall j :: 0 < j < |n| ==> IsDigit(n[j])
    ensures IndexOf(n + "s\t" + p, 's') == |n|
    ensures (n + "s\t" + p)[..|n|] == n
    ensures (n + "s\t" + p)[|n| + 1] == '\t'
    ensures (n + "s\t" + p)[|n| + 2..] == p
  {
    var rest := n + "s\t" + p;
    assert forall j :: 0 <= j < |n| ==> rest[j] == n[j];
    assert rest[|n|] == 's';
  }

  lemma ParseReportOf(n: string, p: string, v: int)
    requires |n| > 0 && (n[0] == '-' || IsDigit(n[0]))
    requires forall j :: 0 < j < |n| ==> IsDigit(n[j])
    requires ParseInt(n) == Some(v)
    ensures ParseReportLine(ReportTag + (n + "s\t" + p)) == Some((v, p))
  {
    var rest := n + "s\t" + p;
    var line := ReportTag + rest;
    PrefixSplit(ReportTag, rest);
    ReportTail(n, p);
    var i := IndexOf(rest, 's');
    assert rest[..i] == n;
  }

  /** A report line reads back as the project and `count * 300` seconds. */
  lemma ReportLineRoundTrip(p: string, s: Summary)
    ensures ParseReportLine(ReportLine(p, s)) == Some((s.count * 300, p))
  {
    var secs := Estimate(s.count);
    IntToStringShape(secs);
    IntRoundTrip(secs);
    ParseReportOf(IntToString(secs), p, secs);
  }

  // ---------------------------------------------------------------------
  // Compaction

  lemma {:induction false} SavedPathsTrimmed(log: seq<string>)
    ensures forall k :: k in SavedPaths(log) ==> IsTrimmed(k)
    decreases |log|
  {
    if |log| > 0 {
      SavedPathsTrimmed(log[1..]);
    }
  }

  /** Reading a compacted log loads exactly the listed pairs and leaves
      every other key alone. */
  lemma {:induction false} LoadCompact(acc: State, m: State, ks: seq<string>)
    requires forall k :: k in ks ==> k in m && IsTrimmed(k)
    ensures LoadSaved(acc, Compact(m, ks)).Some?
    ensures forall k :: k in LoadSaved(acc, Compact(m, ks)).value <==> k in acc || k in ks
    ensures forall k :: k in ks ==> LoadSaved(acc, Compact(m, ks)).value[k] == m[k]
    ensures forall k :: k in acc && k !in ks ==> LoadSaved(acc, Compact(m, ks)).value[k] == acc[k]
    decreases |ks|
  {
    if |ks| > 0 {
      var k0 := ks[0];
      var log := Compact(m, ks);
      CompactAt(m, ks, 0);
      assert log[1..] == Compact(m, ks[1..]);
      SavedLineRoundTrip(k0, m[k0].count, m[k0].lastSeen);
      LoadSavedCons(acc, log, SavedEntry(k0, m[k0].count, m[k0].lastSeen));
      LoadCompact(acc[k0 := m[k0]], m, ks[1..]);
      assert forall k :: k in ks <==> k == k0 || k in ks[1..];
    }
  }

  /** Loading a compacted log on top of the initial record of a watchlist
      that the record covers gives back the record. */
  lemma LoadCompactCovering(w: seq<string>, m: State, ks: seq<string>)
    requires Enumerates(ks, m)
    requires forall p :: p in w ==> p in m
    requires forall k :: k in m ==> IsTrimmed(k)
    ensures LoadSaved(Init(w), Compact(m, ks)) == Some(m)
  {
    var acc := Init(w);
    assert acc.Keys <= m.Keys;
    LoadCompact(acc, m, ks);
    var r := LoadSaved(acc, Compact(m, ks)).value;
    SameRecord(r, m, ks);
  }

  /** A record that agrees with `m` on exactly the keys `ks` lists is `m`. */
  lemma SameRecord(r: State, m: State, ks: seq<string>)
    requires Enumerates(ks, m)
    requires forall k :: k in r <==> k in m
    requires forall k :: k in ks ==> r[k] == m[k]
    ensures r == m
  {
    assert r.Keys == m.Keys;
    SameMap(r, m);
  }

  lemma {:induction false} NoRawEvents(log: seq<string>)
    requires forall i :: 0 <= i < |log| ==> IsSavedLine(log[i])
    ensures ParseEvents(log) == Some([])
    decreases |log|
  {
    if |log| > 0 {
      NoRawEvents(log[1..]);
    }
  }

  /** Compaction idempotence: analysing the compacted log with the same
      watchlist gives back the very same record, provided every watched
      project is in it and no key has surrounding whitespace. */
  lemma CompactionIdempotent(w: seq<string>, m: State, ks: seq<string>)
    requires Enumerates(ks, m)
    requires forall p :: p in w ==> p in m
    requires forall k :: k in m ==> IsTrimmed(k)
    ensures Analyze(w, Compact(m, ks)) == Some(m)
  {
    var log := Compact(m, ks);
    LoadCompactCovering(w, m, ks);
    var ps := EventProjects(w);
    if ps != [] {
      CompactSaved(m, ks);
      NoRawEvents(log);
      NoEventsNoChange(m, ps);
    }
  }

  /** The record `--stats` computes, saved and analysed again, is reproduced
      exactly when the watched paths carry no surrounding whitespace. */
  lemma ReanalysisStable(w: seq<string>, log: seq<string>, ks: seq<string>)
    requires Analyze(w, log).Some?
    requires forall p :: p in w ==> IsTrimmed(p)
    requires Enumerates(ks, Analyze(w, log).value)
    ensures Analyze(w, Compact(Analyze(w, log).value, ks)) == Analyze(w, log)
  {
    SavedPathsTrimmed(log);
    CompactionIdempotent(w, Analyze(w, log).value, ks);
  }

  lemma {:induction false} LoadSavedNoSummaries(m: State, log: seq<string>)
    requires forall i :: 0 <= i < |log| ==> !IsSavedLine(log[i])
    ensures LoadSaved(m, log) == Some(m)
    decreases |log|
  {
    if |log| > 0 {
      LoadSavedNoSummaries(m, log[1..]);
    }
  }

  /** Across passes counts never go down: after compaction, whatever raw
      events the daemon appends, the next analysis gives every entry a count
      at least as large as before. */
  lemma NextPassMonotone(w: seq<string>, m: State, ks: seq<string>, appended: seq<string>, p: string)
    requires Enumerates(ks, m)
    requires forall q :: q in w ==> q in m
    requires forall k :: k in m ==> IsTrimmed(k)
    requires forall i :: 0 <= i < |appended| ==> !IsSavedLine(appended[i])
    requires Analyze(w, Compact(m, ks) + appended).Some?
    requires p in m
    ensures p in Analyze(w, Compact(m, ks) + appended).value
    ensures Analyze(w, Compact(m, ks) + appended).value[p].count >= m[p].count
  {
    var log := Compact(m, ks) + appended;
    LoadSavedAppend(Init(w), Compact(m, ks), appended);
    LoadCompactCovering(w, m, ks);
    LoadSavedNoSummaries(m, appended);
    assert LoadSaved(Init(w), log) == Some(m);
    LoadSavedKeys(Init(w), log);
    AnalyzeEntry(w, log, p);
    RepeatBounds(m[p], p, EventsOf(log), multiset(EventProjects(w))[p]);
  }

  /** Every watched project is reported and re-saved: the report and the
      compacted log both have a line for it, carrying its pair. */
  lemma EveryProjectReported(w: seq<string>, log: seq<string>, ks: seq<string>, p: string)
    requires Analyze(w, log).Some?
    requires Enumerates(ks, Analyze(w, log).value)
    requires p in w
    ensures exists i :: 0 <= i < |ks| && ks[i] == p
              && Report(Analyze(w, log).value, ks)[i] == ReportLine(p, Analyze(w, log).value[p])
              && Compact(Analyze(w, log).value, ks)[i]
                 == SavedLine(p, Analyze(w, log).value[p].count, Analyze(w, log).value[p].lastSeen)
  {
    var m := Analyze(w, log).value;
    assert p in m;
    assert p in ks;
    var i :| 0 <= i < |ks| && ks[i] == p;
    CompactAt(m, ks, i);
    assert Report(m, ks)[i] == ReportLine(p, m[p]);
  }

}

=== FILE: text.dfy ===
/** The string operations of Python 2 that the time tracker relies on:
    `str.strip()`, `str.startswith`, `str.endswith`, `str.split(" ")`
    and `" ".join(...)`. */
module Text {

  /** C `isspace`, which is what Python 2's argument-less `strip()` removes. */
  predicate IsSpace(c: char) {
    c == ' ' || c == '\t' || c == '\n' || c == '\r' || c as int == 11 || c as int == 12
  }

  /** No leading and no trailing whitespace. */
  predicate IsTrimmed(s: string) {
    |s| == 0 || (!IsSpace(s[0]) && !IsSpace(s[|s| - 1]))
  }

  /** The end of the run of whitespace that starts at `i`. */
  function SpaceRunFrom(s: string, i: nat): (j: nat)
    requires i <= |s|
    ensures i <= j <= |s|
    ensures forall k :: i <= k < j ==> IsSpace(s[k])
    ensures j < |s| ==> !IsSpace(s[j])
    decreases |s| - i
  {
    if i < |s| && IsSpace(s[i]) then SpaceRunFrom(s, i + 1) else i
  }

  /** The start of the run of whitespace that ends just before `j`. */
  function SpaceRunUntil(s: string, j: nat): (i: nat)
    requires j <= |s|
    ensures i <= j
    ensures forall k :: i <= k < j ==> IsSpace(s[k])
    ensures 0 < i ==> !IsSpace(s[i - 1])
    decreases j
  {
    if 0 < j && IsSpace(s[j - 1]) then SpaceRunUntil(s, j - 1) else j
  }

  function TrimLeft(s: string): (r: string)
    ensures |r| <= |s| && r == s[|s| - |r|..]
    ensures |r| == 0 || !IsSpace(r[0])
    ensures forall i :: 0 <= i < |s| - |r| ==> IsSpace(s[i])
  {
    s[SpaceRunFrom(s, 0)..]
  }

  function TrimRight(s: string): (r: string)
    ensures |r| <= |s| && r == s[..|r|]
    ensures |r| == 0 || !IsSpace(r[|r| - 1])
    ensures forall i :: |r| <= i < |s| ==> IsSpace(s[i])
  {
    s[..SpaceRunUntil(s, |s|)]
  }

  /** Python's `s.strip()`: the longest infix of `s` that neither starts nor
      ends with whitespace, obtained by dropping whitespace at both ends. */
  function Trim(s: string): (r: string)
    ensures IsTrimmed(r)
    ensures |r| <= |s|
    ensures IsTrimmed(s) ==> r == s
    ensures exists i, j :: 0 <= i <= j <= |s| && r == s[i..j]
              && (forall k :: 0 <= k < i ==> IsSpace(s[k]))
              && (forall k :: j <= k < |s| ==> IsSpace(s[k]))
  {
    var l := TrimLeft(s);
    var r := TrimRight(l);
    assert r == s[|s| - |l|..|s| - |l| + |r|];
    r
  }

  /** `s.strip() == ""`. */
  predicate IsBlank(s: string) {
    Trim(s) == ""
  }

  /** Cutting a concatenation at the seam gives back its parts. */
  lemma PrefixSplit(a: string, b: string)
    ensures (a + b)[..|a|] == a && (a + b)[|a|..] == b
  {
  }

  lemma BlankIsAllSpace(s: string)
    ensures IsBlank(s) <==> forall i :: 0 <= i < |s| ==> IsSpace(s[i])
  {
  }

  predicate StartsWith(s: string, prefix: string) {
    |prefix| <= |s| && s[..|prefix|] == prefix
  }

  predicate EndsWith(s: string, suffix: string) {
    |suffix| <= |s| && s[|s| - |suffix|..] == suffix
  }

  predicate NoSpace(s: string) {
    forall i :: 0 <= i < |s| ==> s[i] != ' '
  }

  /** Python's `s.split(" ")`: the maximal space-free pieces between single
      spaces; two adjacent spaces give an empty piece. */
  function Split(s: string): (r: seq<string>)
    ensures |r| >= 1
    ensures forall i :: 0 <= i < |r| ==> NoSpace(r[i])
    decreases |s|
  {
    if |s| == 0 then [""]
    else if s[0] == ' ' then [""] + Split(s[1..])
    else
      var rest := Split(s[1..]);
      [[s[0]] + rest[0]] + rest[1..]
  }

  /** Python's `" ".join(parts)`. */
  function Join(parts: seq<string>): string
    decreases |parts|
  {
    if |parts| == 0 then ""
    else if |parts| == 1 then parts[0]
    else parts[0] + " " + Join(parts[1..])
  }

  /** Splitting at spaces and joining with spaces gives the string back. */
  lemma {:induction false} JoinSplit(s: string)
    ensures Join(Split(s)) == s
    decreases |s|
  {
    if |s| > 0 {
      JoinSplit(s[1..]);
      if s[0] == ' ' {
        JoinSplitSpace(s);
      } else {
        JoinSplitWord(s);
      }
    }
  }

  /** The step of `JoinSplit` for a string that starts with a space. */
  lemma JoinSplitSpace(s: string)
    requires |s| > 0 && s[0] == ' '
    requires Join(Split(s[1..])) == s[1..]
    ensures Join(Split(s)) == s
  {
    var rest := Split(s[1..]);
    var parts := [""] + rest;
    assert Split(s) == parts;
    assert parts[0] == "" && parts[1..] == rest;
    assert Join(parts) == "" + " " + Join(rest);
    assert s == " " + s[1..];
  }

  /** The step of `JoinSplit` for a string that starts with another
      character: that character joins the first piece. */
  lemma JoinSplitWord(s: string)
    requires |s| > 0 && s[0] != ' '
    requires Join(Split(s[1..])) == s[1..]
    ensures Join(Split(s)) == s
  {
    var rest := Split(s[1..]);
    var parts := [[s[0]] + rest[0]] + rest[1..];
    assert Split(s) == parts;
    if |rest| == 1 {
      assert parts == [[s[0]] + rest[0]];
      assert Join(rest) == rest[0];
      assert Join(parts) == [s[0]] + s[1..];
    } else {
      var tail := Join(rest[1..]);
      assert parts[0] == [s[0]] + rest[0] && parts[1..] == rest[1..];
      assert Join(parts) == ([s[0]] + rest[0]) + " " + tail;
      assert Join(rest) == rest[0] + " " + tail;
      ConsJoin(s[0], rest[0], tail);
      assert Join(parts) == [s[0]] + s[1..];
    }
    assert [s[0]] + s[1..] == s;
  }

  lemma ConsJoin(c: char, a: string, t: string)
    ensures ([c] + a) + " " + t == [c] + (a + " " + t)
  {
  }

  /** A space-free word followed by a space is the first piece of the split. */
  lemma {:induction false} SplitAfterWord(a: string, b: string)
    requires NoSpace(a)
    ensures Split(a + " " + b) == [a] + Split(b)
    decreases |a|
  {
    if |a| == 0 {
      assert a + " " + b == " " + b;
      assert (" " + b)[1..] == b;
    } else {
      SplitAfterWord(a[1..], b);
      assert (a + " " + b)[1..] == a[1..] + " " + b;
      assert [a[0]] + a[1..] == a;
    }
  }

  /** `ok` holds of every line. */
  predicate All(lines: seq<string>, ok: string -> bool) {
    forall i :: 0 <= i < |lines| ==> ok(lines[i])
  }

  lemma AllTail(lines: seq<string>, ok: string -> bool)
    requires |lines| > 0
    ensures All(lines, ok) <==> ok(lines[0]) && All(lines[1..], ok)
  {
    assert forall i :: 0 < i < |lines| ==> lines[i] == lines[1..][i - 1];
  }

  /** No string occurs twice. */
  predicate Distinct(s: seq<string>) {
    forall i, j :: 0 <= i < j < |s| ==> s[i] != s[j]
  }

  lemma ConsDistinct(x: string, s: seq<string>)
    requires Distinct(s) && x !in s
    ensures Distinct([x] + s)
  {
    var t := [x] + s;
    forall i, j | 0 <= i < j < |t| ensures t[i] != t[j] {
      assert t[j] == s[j - 1];
      if i > 0 {
        assert t[i] == s[i - 1];
      }
    }
  }

  lemma {:induction false} DistinctOccursOnce(s: seq<string>, x: string)
    requires Distinct(s)
    ensures multiset(s)[x] <= 1
    decreases |s|
  {
    if |s| > 0 {
      assert s == [s[0]] + s[1..];
      DistinctOccursOnce(s[1..], x);
      if s[0] == x {
        assert x !in s[1..];
      }
    }
  }
}

=== FILE: watchlist.dfy ===
/** The watchlist helpers: reading the watchlist file's lines into a
    duplicate-free list of projects, and deleting the entry at an index for
    `--remove`. */
module Watchlist {
  import opened Wrappers
  import opened Text
  import opened Aggregator
  import opened Analysis

  /** `readWatchlist`: blank lines are dropped and duplicates collapse. The
      source goes through a Python set, whose order is unspecified; this
      model keeps each project at its last occurrence in the file, and
      `AnyReadingSameAnalysis` shows the order never matters downstream. */
  function ReadWatchlist(lines: seq<string>): (w: seq<string>)
    ensures Distinct(w)
    ensures forall x :: x in w <==> x in lines && !IsBlank(x)
    ensures |w| <= |lines|
    decreases |lines|
  {
    if |lines| == 0 then []
    else
      var rest := ReadWatchlist(lines[1..]);
      assert lines == [lines[0]] + lines[1..];
      if IsBlank(lines[0]) || lines[0] in lines[1..] then rest
      else
        ConsDistinct(lines[0], rest);
        [lines[0]] + rest
  }

  /** A duplicate-free list holds each of its elements exactly once. */
  lemma DistinctMultiset(s: seq<string>, x: string)
    requires Distinct(s)
    ensures multiset(s)[x] == if x in s then 1 else 0
  {
    DistinctOccursOnce(s, x);
    if x in s {
      assert x in multiset(s);
    }
  }

  /** Whatever order the set hands the projects out in, the analysis comes
      out the same: any duplicate-free listing of the non-blank lines is a
      permutation of the model's reading. */
  lemma AnyReadingSameAnalysis(lines: seq<string>, w: seq<string>, log: seq<string>)
    requires Distinct(w)
    requires forall x :: x in w <==> x in lines && !IsBlank(x)
    ensures Analyze(w, log) == Analyze(ReadWatchlist(lines), log)
  {
    var r := ReadWatchlist(lines);
    forall x ensures multiset(w)[x] == multiset(r)[x] {
      DistinctMultiset(w, x);
      DistinctMultiset(r, x);
    }
    assert multiset(w) == multiset(r);
    OrderIndependent(w, r, log);
  }

  /** `del wl[i]` in the `--remove` branch, taken only for `0 <= i < len`;
      any other index leaves the branch untaken (`None`). The entry at `i`
      goes, the entries before it keep their places and those after it move
      up by one. */
  function RemoveAt(w: seq<string>, i: int): (r: Option<seq<string>>)
    ensures r.Some? <==> 0 <= i < |w|
    ensures r.Some? ==> |r.value| == |w| - 1
    ensures r.Some? ==> forall j :: 0 <= j < i ==> r.value[j] == w[j]
    ensures r.Some? ==> forall j :: i <= j < |r.value| ==> r.value[j] == w[j + 1]
  {
    if 0 <= i < |w| then Some(w[..i] + w[i + 1..]) else None
  }

  /** Putting the removed entry back at its index restores the list, and on
      a duplicate-free list exactly that project disappears. */
  lemma RemoveAtInverse(w: seq<string>, i: int)
    requires 0 <= i < |w|
    ensures RemoveAt(w, i).value[..i] + [w[i]] + RemoveAt(w, i).value[i..] == w
    ensures multiset(RemoveAt(w, i).value) + multiset{w[i]} == multiset(w)
    ensures Distinct(w) ==> Distinct(RemoveAt(w, i).value)
    ensures Distinct(w) ==> forall x :: x in RemoveAt(w, i).value <==> x in w && x != w[i]
  {
    var r := RemoveAt(w, i).value;
    assert r == w[..i] + w[i + 1..];
    assert r[..i] == w[..i];
    assert r[i..] == w[i + 1..];
    assert w == w[..i] + [w[i]] + w[i + 1..];
    calc {
      multiset(w);
      multiset(w[..i]) + multiset{w[i]} + multiset(w[i + 1..]);
      multiset(r) + multiset{w[i]};
    }
    if Distinct(w) {
      RemoveAtMembers(w, i);
    }
  }

  lemma RemoveAtMembers(w: seq<string>, i: int)
    requires 0 <= i < |w| && Distinct(w)
    ensures forall x :: x in RemoveAt(w, i).value <==> x in w && x != w[i]
  {
    var r := RemoveAt(w, i).value;
    forall x ensures x in r <==> x in w && x != w[i] {
      if x in r {
        var j :| 0 <= j < |r| && r[j] == x;
        if j < i { assert w[j] == x; } else { assert w[j + 1] == x; }
      }
      if x in w && x != w[i] {
        var j :| 0 <= j < |w| && w[j] == x;
        if j < i { assert r[j] == x; } else { assert r[j - 1] == x; }
      }
    }
  }
}

=== FILE: wrappers.dfy ===
/** The result type used wherever the Python code would raise. */
module Wrappers {

  /** `None` stands for an exception raised by the modelled code. */
  datatype Option<+T> = None | Some(value: T)
}
